=== FILE: README.md ===
# Screen recorder session controller, modelled in Dafny

This project models the core of a small screen-recording web application. The
browser script `static/scripts.js` keeps one recording session in module
globals:

- the `MediaRecorder` and its state;
- the buffer of recorded chunks;
- an elapsed-time clock that survives pause and resume;
- the `disabled` flags of six buttons.

Six click handlers drive that session: start, pause, resume, stop, discard and
upload.

- Pause, resume and stop first check the recorder state, change local
  state, call the Flask server `app.py`, and update the buttons only when
  the server answers ok.
- Upload checks the buffer instead of the recorder, and changes local state
  only once the server accepted the file.
- Discard checks nothing, clears local state and then calls the server.
- Start checks nothing and calls the server first. On any failure,
  including a failed `/start`, its catch sets the 'discard' mask, which
  enables only start.
The server side is modelled as pure decisions: the extension check
`allowed_file`, the ordered request checks of the upload endpoint, and the
constant replies of the control endpoints.

Files:

- `wrappers.dfy`: `Option`.
- `elapsed.dfy` (module `Elapsed`): what `updateTimer` displays. It splits
  milliseconds into h:m:s with JavaScript's `Math.floor` and truncating `%`,
  then pads each field with `padStart(2, '0')`. The module proves:
  - the bounds of each field and that the split is the unique one;
  - the display counts whole seconds and never goes back;
  - the text is decimal digits around two ':' and reads back as the split.
- `server.dfy` (module `Server`): `allowed_file`, `upload_video` and the
  control endpoints of `app.py`.
- `controller.dfy` (module `Controller`): the session as a value `State`. It
  has one function per handler that gives the next state and the kind of the
  last message shown. It also holds the timer functions and
  `updateButtonState`.
- `controller_properties.dfy` (module `ControllerProperties`): lemmas about
  the handlers, alone, in sequence, and against the server's replies.
- `scripts.dfy` (module `Scripts`): class `Session`. Its fields are the
  script's globals, and its methods update them in the script's order. Each
  method is proved equal to its `Controller` counterpart: the function of
  the same name, `DataAvailable` for `OnDataAvailable`, `VetoUnload` for
  `OnBeforeUnload`.

Inputs from outside become parameters:

- `now` stands for `Date.now()`.
- A reply `Option<Server.Reply>` is the settled `fetch`. `None` means the
  request failed.
- A `Capture` is what `getDisplayMedia`, the `MediaRecorder` constructor
  and its `start(1000)` did.
- The upload's `id` is the `uuid4()` text.
- A `SaveOutcome` is what `video_file.save` did.

Quirks of the source are modelled as written, and several are proved:

- `pausedTime` is never reset and `isPaused` is not cleared by
  `startTimer` or `stopTimer`. So a new recording's timer starts at the old
  paused count. After a stop while paused, the next recording's timer stays
  frozen at that count (`StopWhilePausedFreezesNextTimer`). It stays frozen
  until that recording's first pause, where the count jumps forward by all
  the time since the restart (`RestartedTimerJumpsAtFirstPause`).
- Discard forgets the recorder without stopping it, and it has no guard.
- `allowed_file` is never called by `upload_video`: a `.mov` upload is
  stored as `<id>.webm` (`ExtensionNotChecked`).
- The last `400 No valid file found` branch of `upload_video` cannot be
  reached (`NoValidFileUnreachable`).
- When `/stop` fails, the recorder is already inactive but the buttons still
  offer only pause/resume and stop. Each of those refuses an inactive
  recorder, so no run of clicks reaches discard or upload again
  (`FailedStopStrandsSession`).
- The same happens when the user ends the screen share from the browser.
  The recorder stops on its own, no handler runs, and the timer stays as it
  was: still ticking if sharing ended during recording, stopped if it ended
  while paused (`SharingEndedStrandsSession`).
- If `start(1000)` throws, the catch enables only start. By then a new,
  inactive recorder and an empty buffer have replaced the old ones.

Under the discipline that a disabled button fires no click, every reachable
mask is one of four, and start is enabled only when no recorder is live
(`CoherentRun`, `StartNeverReplacesLiveRecorder`).

## Model

| member | source | states |
|---|---|---|
| Elapsed.JsRem | static/scripts.js:54-55 | JavaScript's `%`: `a` equals the truncated quotient times `d` plus the result, which lies in [0, d) for a non-negative dividend and in (-d, 0] for a negative one |
| Elapsed.Split | static/scripts.js:53-55 | for a non-negative count: hours ≥ 0 and unbounded, minutes and seconds in 0..59, and h·3600000 + m·60000 + s·1000 ≤ ms < that + 1000 |
| Elapsed.SplitUnique | static/scripts.js:53-55 | reference definition: an in-range triple is the split of `ms` exactly when `ms` falls within the second it denotes |
| Elapsed.SecondsUnique | static/scripts.js:53-55 | two in-range triples that count the same number of seconds are equal |
| Elapsed.SplitTotalSeconds | static/scripts.js:53-55 | h·3600 + m·60 + s equals `ms / 1000`: the display counts whole seconds, truncated |
| Elapsed.DisplayNeverRegresses | static/scripts.js:50-57 | for 0 ≤ a ≤ b the seconds in the split of b are at least those in the split of a |
| Elapsed.SameSecondSameText | static/scripts.js:53-57 | two counts within the same whole second render the same text |
| Elapsed.Digits | static/scripts.js:57 | `String(n)` of a natural is a non-empty string of decimal digits, one digit exactly when n < 10, with no leading '0' when n > 0 |
| Elapsed.ValueDigits | static/scripts.js:57 | the digits of `String(n)` read back as n |
| Elapsed.PadStart2 | static/scripts.js:57 | `padStart(2, '0')` keeps the text as a suffix, prepends only '0's, and makes the length at least 2 |
| Elapsed.Pad2Field | static/scripts.js:57 | a non-negative field is padded to at least two digits, exactly two below 100, starts with '0' exactly below 10, and reads back as itself |
| Elapsed.ParseFields | static/scripts.js:57 | decimal fields, two digits for minutes and seconds, joined by ':' read back field by field, and the text is digits around its two ':' |
| Elapsed.ParsedIsDecimal | static/scripts.js:57 | a text reads back as a display exactly when it has ':' third and sixth from the end and decimal digits everywhere else, at least eight characters in all |
| Elapsed.NonDigitsUnreadable | static/scripts.js:57 | texts with a non-digit where a digit belongs (`00:00:/?`, `00:0a:00`, `-1:00:00`) are not displays |
| Elapsed.RenderReadsBack | static/scripts.js:53-57 | an in-range triple, padded and joined, reads back as itself, is digits around two ':', has 8 characters exactly when hours are below 100, and starts with '0' exactly when hours are below 10 |
| Elapsed.FormatElapsed | static/scripts.js:53-57 | for a non-negative count, the displayed text is decimal digits around two ':' and reading it back gives exactly the h:m:s split of the count; the text has at least 8 characters, exactly 8 when hours are below 100, and starts with '0' exactly when hours are below 10, so the hours are `String(h)` with no extra zero from 10 on |
| Server.LastDot | app.py:38 | the split point of `rsplit('.', 1)`: absent exactly when there is no '.', otherwise a '.' with none after it |
| Server.LowerChar | app.py:38 | `str.lower()` on a character: upper-case ASCII letters move to lower case, every other character is kept, and no result is upper case |
| Server.Lower | app.py:38 | lowering keeps the length and lowers each position |
| Server.LowerIdempotent | app.py:38 | lowering twice is lowering once |
| Server.AllowedFile | app.py:37-38 | a name with no '.' is never allowed; an allowed name ends in a '.' followed by three or four characters |
| Server.AllowedFileIff | app.py:28-38 | `stem + "." + ext` with no '.' in `ext` is allowed iff the lowered `ext` is `webm` or `mp4`, whatever the stem |
| Server.AcceptedExamples | app.py:37-38 | `a.tar.WEBM` and `clip.MP4` are allowed: only the last extension counts, in any case |
| Server.RejectedExamples | app.py:37-38 | `video.` and `clip.mov` are refused |
| Server.AllowedFileIgnoresCase | app.py:38 | lowering the whole name first never changes the decision |
| Server.UploadVideo | app.py:108-147 | the status is one of 200/400/405/500; 405 iff not POST; 200 iff every check passes and the save succeeds, and then the reply names `<id>.webm`; a failed save gives 500 with `Error saving file: ` and the detail |
| Server.MethodCheckedFirst | app.py:111-112 | every non-POST request gets the same 405, whatever its body, id or save outcome |
| Server.ChecksPrecedeSave | app.py:114-124 | a request failing a check gets the same reply whatever the save would do; a missing `file` part gives 400 "No file part", an empty name 400 "No file selected" |
| Server.StoredNameIgnoresUpload | app.py:126-138 | any two requests that reach the save get the same reply, which names `<id>.webm` |
| Server.ExtensionNotChecked | app.py:108-143 | a file `clip.mov`, refused by `allowed_file`, is stored with status 200 |
| Server.NoValidFileUnreachable | app.py:126-143 | the reply `400 No valid file found` is never produced |
| Server.ControlReply | app.py:57-105 | `/start`, `/pause`, `/resume`, `/stop` and `/discard` always answer 200 with a non-empty message and keep no session state |
| Controller.UpdateButtonState | static/scripts.js:77-120 | 'start' enables exactly pause and stop; 'stop' exactly discard and upload; 'discard' and 'upload' only start; 'pause' and 'resume' flip pause/resume and keep the other four flags |
| Controller.ElapsedAtRate | static/scripts.js:51 | while `isPaused` the count `updateTimer` computes stands still; otherwise it grows by exactly the time that passes |
| Controller.StartTimer | static/scripts.js:44-48 | the interval runs, `startTime` becomes `now - pausedTime`, `pausedTime` and `isPaused` are kept, and the count `updateTimer` computes at `now` equals the old `pausedTime` |
| Controller.PauseTimer | static/scripts.js:60-64 | the interval stops and the count `updateTimer` would compute at every later time is the count at the pause |
| Controller.ResumeTimer | static/scripts.js:66-70 | the interval runs and the count continues from `pausedTime`: at time t it is `pausedTime + (t - now)` |
| Controller.StopTimer | static/scripts.js:72-75 | only the interval stops: `startTime`, `pausedTime` and `isPaused` are kept, so the count as a function of time is unchanged |
| Controller.StartRecording | static/scripts.js:130-182 | success iff `/start` answered ok and capture was granted, and then: recording, empty buffer, the clock `startTimer` gives (running from the old paused count, `isPaused` kept), only pause and stop enabled; a failed `/start` shows the remote failure; permission denied iff ok then NotAllowedError; any other capture error shows a capture failure; every failure keeps the timer and enables only start; it keeps recorder and chunks too, except that a throwing `start(1000)` leaves a new inactive recorder and an empty buffer |
| Controller.PauseRecording | static/scripts.js:184-214 | refused, with nothing changed, iff the recorder is not recording; otherwise paused with a frozen timer whatever the reply, an info message and the 'pause' mask when the reply is ok, a remote failure and the old mask when not |
| Controller.ResumeRecording | static/scripts.js:216-246 | refused, with nothing changed, iff the recorder is not paused; otherwise recording with the timer resumed whatever the reply, success and the 'resume' mask when the reply is ok, a remote failure and the old mask when not |
| Controller.StopRecording | static/scripts.js:248-289 | refused, with nothing changed, iff the recorder is neither recording nor paused; otherwise inactive with the timer stopped whatever the reply, success and the 'stop' mask when the reply is ok, a remote failure and the old mask when not |
| Controller.DiscardRecording | static/scripts.js:291-325 | the buffer is empty and the recorder gone whatever the reply; the timer is untouched; success and the 'discard' mask when the reply is ok, a remote failure and the old mask when not |
| Controller.UploadRecording | static/scripts.js:327-374 | an empty buffer is refused with nothing changed; otherwise success when the upload is accepted and a remote failure when not; on success an empty buffer, no recorder, only start enabled; any failure changes nothing |
| Controller.DataAvailable | static/scripts.js:154-158 | a chunk with bytes is appended, an empty one ignored, and nothing else changes |
| Controller.SharingEnded | static/scripts.js:141-166 | when the captured screen's tracks end, a recording or paused recorder becomes inactive and nothing else changes; otherwise nothing changes |
| ControllerProperties.PauseResumeMasks | static/scripts.js:87-94 | 'pause' then 'resume' restores a mask in which pause was enabled and resume disabled |
| ControllerProperties.ReplyDecidesOnlyButtons | static/scripts.js:184-325 | for pause, resume, stop and discard the reply changes only the buttons: recorder, chunks and timer are the same whatever it is (local action first, no rollback) |
| ControllerProperties.StartAsksServerFirst | static/scripts.js:135-147 | when `/start` fails the capture outcome is irrelevant and the message is the remote failure |
| ControllerProperties.EmptyUploadNeverSent | static/scripts.js:328-331 | with no chunks, upload is refused and its outcome does not depend on any reply |
| ControllerProperties.PauseResumeContinuity | static/scripts.js:60-70 | for a recording whose timer runs (its requires excludes exactly a recording restarted while `isPaused` was left set): after a pause at t1 the count `updateTimer` computes stays at its value at t1; after a resume at t2 it is that value at t2 and grows from there, so the pause is not counted |
| ControllerProperties.StopWhilePausedFreezesNextTimer | static/scripts.js:44-75 | pause, stop, discard, then a new start: the new recording's timer is frozen at the old paused count |
| ControllerProperties.RestartedTimerJumpsAtFirstPause | static/scripts.js:44-64 | the first pause of that new recording at t2 makes the count the old paused count plus t2 minus the restart time |
| ControllerProperties.TimerExample | static/scripts.js:50-64 | on a fresh page, start at t0 and pause at t0 + 2500: the count formats as "00:00:02" at every later time |
| ControllerProperties.DeliverAllAppends | static/scripts.js:154-158 | a series of chunk deliveries appends exactly the chunks with bytes, in arrival order, and changes nothing else |
| ControllerProperties.UnloadVetoFollowsRecorder | static/scripts.js:376-383 | the unload veto is on after a successful start or resume, and off after a pause, stop, discard or successful upload |
| ControllerProperties.CoherentStep | static/scripts.js:77-374 | a click on an enabled button, a chunk delivery or the end of sharing keeps the masks and the recorder state in agreement |
| ControllerProperties.CoherentRun | static/scripts.js:77-374 | from an agreeing state every run of enabled clicks and deliveries stays in agreement |
| ControllerProperties.StartNeverReplacesLiveRecorder | static/scripts.js:130-182 | on a page driven by its buttons, start is enabled only when no recorder is recording or paused |
| ControllerProperties.FailedStopAckLeavesButtons | static/scripts.js:253-279 | a stop whose `/stop` fails leaves the recorder inactive and the pause/resume/stop buttons as they were |
| ControllerProperties.FailedStopStrandsSession | static/scripts.js:248-289 | from that state no run of clicks changes the recorder, the buttons or the timer |
| ControllerProperties.SharingEndedStrandsSession | static/scripts.js:184-289 | when sharing ends during a recording, no later run changes the inactive recorder, the buttons or the timer, which keeps ticking if it was ticking |
| ControllerProperties.ControlRepliesAcknowledged | app.py:72-105 | every control endpoint's reply counts as `response.ok` on the page |
| ControllerProperties.ServerCommitsPauseResume | static/scripts.js:192-238 | with the server's own replies, a pause from recording shows the info message and a resume from paused succeeds |
| ControllerProperties.UploadSucceedsIffSaved | static/scripts.js:337-363 | the page's upload succeeds exactly when the server reads its body and saves the file; a body it cannot read, such as one over MAX_CONTENT_LENGTH, gets a 500 |
| ControllerProperties.UploadAcceptedIffStored | static/scripts.js:345-354 | a `/save` reply counts as accepted on the page exactly when its status is 200 |
| ControllerProperties.HappyPath | static/scripts.js:130-289 | start, pause, resume and stop with the server answering: inactive recorder, only discard and upload enabled, the delivered non-empty chunks in order, and a count that excludes the pause |
| Scripts.Session.constructor | static/scripts.js:3-10 | the page's initial globals: no recorder, no chunks, `pausedTime` 0, not paused, and the buttons as given |
| Scripts.Session.TimerText | static/scripts.js:50-58 | the text is decimal digits around two ':' and reads back as the split of `pausedTime` while paused, and of `now - startTime` otherwise |
| Scripts.Session.StartTimer | static/scripts.js:44-48 | updates the timer fields in place as `Controller.StartTimer` |
| Scripts.Session.PauseTimer | static/scripts.js:60-64 | updates the timer fields in place as `Controller.PauseTimer` |
| Scripts.Session.ResumeTimer | static/scripts.js:66-70 | updates the timer fields in place as `Controller.ResumeTimer` |
| Scripts.Session.StopTimer | static/scripts.js:72-75 | clears the running flag as `Controller.StopTimer` |
| Scripts.Session.UpdateButtonState | static/scripts.js:77-120 | sets the six `disabled` fields in place as `Controller.UpdateButtonState` |
| Scripts.Session.StartRecording | static/scripts.js:130-182 | the new globals and the message are those of `Controller.StartRecording` |
| Scripts.Session.PauseRecording | static/scripts.js:184-214 | the new globals and the message are those of `Controller.PauseRecording` |
| Scripts.Session.ResumeRecording | static/scripts.js:216-246 | the new globals and the message are those of `Controller.ResumeRecording` |
| Scripts.Session.StopRecording | static/scripts.js:248-289 | the new globals and the message are those of `Controller.StopRecording` |
| Scripts.Session.DiscardRecording | static/scripts.js:291-325 | the new globals and the message are those of `Controller.DiscardRecording` |
| Scripts.Session.UploadRecording | static/scripts.js:327-374 | the new globals and the message are those of `Controller.UploadRecording` |
| Scripts.Session.OnDataAvailable | static/scripts.js:154-158 | appends a chunk with bytes to `recordedChunks` as `Controller.DataAvailable` |
| Scripts.Session.OnBeforeUnload | static/scripts.js:376-383 | asks for confirmation exactly when the recorder is recording, never when paused |

## Left out

- Rendering: `showMessage` texts and its 5-second auto-hide, the loader, the
  timer element's visibility and `videoElement.src` are not modelled. A
  handler returns only the kind of its last message: info, success, or an
  error with its cause.
- Asynchrony: each handler runs up to the settlement of its remote call
  before the next event. Clicks that land while a request is still pending
  are not modelled. Chunk deliveries are separate events in between.
- Browser APIs: `getDisplayMedia` constraints, `MediaRecorder` encoding,
  stopping the stream's tracks and the `onstop` blob are foreign code. The
  recorder is an abstract state, and a chunk is its bytes.
- The `dataavailable` listener is attached to every recorder. A recorder
  that discard forgot without stopping could still deliver. The model
  therefore accepts a delivery at any time.
- `setInterval` and `clearInterval` become one running flag. Two intervals
  started one after the other are not told apart. The model gives the count
  `updateTimer` computes at a time, not the text on the page. The page
  changes its text only on an interval tick. While the interval is cleared
  it keeps the last tick's text, and after a start or resume it keeps the
  old text until the first tick. For example, take ticks one second apart,
  counted from each start or resume. A start at 0, a pause at 1500, a
  resume at 10000 and a pause at 12600 leave "00:00:03" on the page, while
  the count is 4100 ("00:00:04").
- The outer `try`/`catch` blocks of the pause, resume, stop, discard and
  upload handlers are not modelled. Nothing they guard throws once the
  state guard has passed.
- Numbers beyond 2^53 are not modelled, nor hour counts of 10^21 and more.
  For those, JavaScript's number type and its exponent notation would differ
  from unbounded integers.
- The initial button state and the button-to-handler wiring live in the page
  markup, which is not part of this model. The constructor takes the initial
  mask as a parameter. The run lemmas start from a page with only start
  enabled.
- Recorders that stop on their own: the end of screen sharing is an event
  of the run lemmas (`Controller.SharingEnded`). The `Scripts.Session` class
  has no method for it, because no code of the page runs then.
- ControllerProperties.UploadSucceedsIffSaved: whether the body exceeds
  300 MB is a parameter. It is not computed from the chunks' sizes, because
  the multipart framing adds bytes the model does not know.
- Server.LowerChar: lowers ASCII letters only, unlike Python's `str.lower`.
  No other character lowers to a letter of `webm` or `mp4`, so
  `allowed_file`'s decision is the same.
- Flask plumbing is not modelled: routing and its method lists,
  `render_template`, `send_from_directory`, the 404/500 error handlers,
  folder creation, logging and the `video_file.save` write itself.
- `MAX_CONTENT_LENGTH` appears only as an upload body that cannot be read.
  That raises inside `upload_video` and becomes a 500 "Server error" reply.
- Server.ControlReply: the `except` 500 branches of the control endpoints
  are not modelled. Those endpoints only return a constant. `/start`'s
  folder wipe is I/O and suppresses its own errors.

=== FILE: controller.dfy ===
/**
 * The session controller of the recording page (static/scripts.js), as
 * values: the state that the page's globals hold, and one function per
 * event handler giving the state after the handler and the message it
 * shows last.  The class in scripts.dfy updates the same state field by
 * field and is specified by these functions.
 *
 * Every outcome from outside is an argument: `now` stands for `Date.now()`,
 * a reply for the settled `fetch` (None when the request itself failed),
 * and a `Capture` for what `getDisplayMedia`, the MediaRecorder
 * constructor and `start(1000)` did.  Handlers run one at a time, each up to the settlement
 * of its remote call.
 */
module Controller {
  import opened Wrappers
  import Server

  // ---------------------------------------------------------------------
  // The state

  /** `mediaRecorder`: none, or a recorder in state 'inactive', 'recording' or 'paused'. */
  datatype Recorder = NoRecorder | Inactive | Recording | Paused

  /** A blob delivered by 'dataavailable'; its size is its byte count. */
  datatype Chunk = Chunk(bytes: seq<bv8>)

  /** The six buttons, which are also the six actions of updateButtonState. */
  datatype Command = Start | Pause | Resume | Stop | Discard | Upload

  /** The `disabled` flags of the six buttons. */
  datatype Controls = Controls(start: bool, pause: bool, resume: bool, stop: bool, discard: bool, upload: bool)

  /** `startTime`, `pausedTime`, `isPaused`, and whether `timerInterval` is set. */
  datatype Clock = Clock(startTime: int, pausedTime: int, isPaused: bool, ticking: bool)

  /** The page's globals: `mediaRecorder`, `recordedChunks`, the timer and the buttons. */
  datatype State = State(recorder: Recorder, chunks: seq<Chunk>, clock: Clock, controls: Controls)

  /** Why a handler shows an error. */
  datatype Cause =
    | Rejected          // the recorder is not in a state the handler acts on, or nothing to upload
    | PermissionDenied  // getDisplayMedia rejected with NotAllowedError
    | CaptureFailed     // getDisplayMedia, the MediaRecorder constructor or its start failed otherwise
    | RemoteFailed      // the request failed, or its reply was not accepted

  /** The kind of the last message a handler shows. */
  datatype Message = Info | Success | Failure(cause: Cause)

  datatype Outcome = Outcome(next: State, message: Message)

  /** What asking for the screen and starting a recorder on it gave. */
  datatype Capture =
    | Granted             // a recorder was created on the screen and started
    | NotAllowed          // getDisplayMedia rejected with NotAllowedError
    | CaptureError        // getDisplayMedia or the MediaRecorder constructor threw otherwise
    | RecorderStartError  // the recorder was created, then `start(1000)` threw

  // ---------------------------------------------------------------------
  // Buttons

  predicate IsEnabled(c: Controls, cmd: Command)
  {
    match cmd
    case Start => !c.start
    case Pause => !c.pause
    case Resume => !c.resume
    case Stop => !c.stop
    case Discard => !c.discard
    case Upload => !c.upload
  }

  /** updateButtonState(action) */
  function UpdateButtonState(c: Controls, action: Command): (r: Controls)
    ensures action == Start ==> forall cmd :: IsEnabled(r, cmd) <==> cmd == Pause || cmd == Stop
    ensures action == Stop ==> forall cmd :: IsEnabled(r, cmd) <==> cmd == Discard || cmd == Upload
    ensures action == Discard || action == Upload ==> forall cmd :: IsEnabled(r, cmd) <==> cmd == Start
    ensures action == Pause ==> !IsEnabled(r, Pause) && IsEnabled(r, Resume)
    ensures action == Resume ==> IsEnabled(r, Pause) && !IsEnabled(r, Resume)
    ensures action == Pause || action == Resume ==>
              forall cmd :: cmd != Pause && cmd != Resume ==> IsEnabled(r, cmd) == IsEnabled(c, cmd)
  {
    match action
    case Start => Controls(true, false, true, false, true, true)
    case Pause => c.(pause := true, resume := false)
    case Resume => c.(pause := false, resume := true)
    case Stop => Controls(true, true, true, true, false, false)
    case Discard => Controls(false, true, true, true, true, true)
    case Upload => Controls(false, true, true, true, true, true)
  }

  // ---------------------------------------------------------------------
  // The timer

  /** The count updateTimer shows at `now`: frozen while `isPaused`, running otherwise. */
  function ElapsedAt(c: Clock, now: int): int
  {
    if c.isPaused then c.pausedTime else now - c.startTime
  }

  /** While `isPaused` the count stands still; otherwise it grows by the time that passes. */
  lemma ElapsedAtRate(c: Clock, t: int, d: int)
    ensures ElapsedAt(c, t + d) == if c.isPaused then ElapsedAt(c, t) else ElapsedAt(c, t) + d
  {
  }

  /**
   * startTimer.  `pausedTime` is never reset and `isPaused` is not cleared,
   * so a new session shows the previous session's paused count at its start.
   */
  function StartTimer(c: Clock, now: int): (r: Clock)
    ensures r.ticking && r.pausedTime == c.pausedTime && r.isPaused == c.isPaused
    ensures r.startTime == now - c.pausedTime
    ensures ElapsedAt(r, now) == c.pausedTime
  {
    c.(startTime := now - c.pausedTime, ticking := true)
  }

  /** pauseTimer: the count at `now` is kept and shown from then on. */
  function PauseTimer(c: Clock, now: int): (r: Clock)
    ensures r.isPaused && !r.ticking && r.startTime == c.startTime
    ensures forall t :: ElapsedAt(r, t) == now - c.startTime
  {
    c.(pausedTime := now - c.startTime, isPaused := true, ticking := false)
  }

  /** resumeTimer: counting continues from the kept count. */
  function ResumeTimer(c: Clock, now: int): (r: Clock)
    ensures !r.isPaused && r.ticking && r.pausedTime == c.pausedTime
    ensures forall t :: ElapsedAt(r, t) == c.pausedTime + (t - now)
  {
    c.(isPaused := false, startTime := now - c.pausedTime, ticking := true)
  }

  /** stopTimer: only the interval stops; `startTime`, `pausedTime` and `isPaused` are kept. */
  function StopTimer(c: Clock): (r: Clock)
    ensures !r.ticking
    ensures r.(ticking := c.ticking) == c
    ensures forall t :: ElapsedAt(r, t) == ElapsedAt(c, t)
  {
    c.(ticking := false)
  }

  // ---------------------------------------------------------------------
  // Remote replies

  /** `response.ok` */
  predicate Acknowledged(reply: Option<Server.Reply>)
  {
    reply.Some? && 200 <= reply.value.status <= 299
  }

  /** The upload is accepted: `response.ok` and no `data.error` (an empty string is falsy). */
  predicate UploadAccepted(reply: Option<Server.Reply>)
  {
    Acknowledged(reply) && !(reply.value.body.ErrorBody? && reply.value.body.error != "")
  }

  /**
   * The request `uploadRecording` posts to /save: one part `file` named
   * 'recording.webm'.  `bodyError` is the message raised when the server
   * reads the body (one over MAX_CONTENT_LENGTH), None when it reads it.
   */
  function UploadRequest(bodyError: Option<string>): Server.Request
  {
    match bodyError
    case None => Server.Request("POST", Server.Parsed(map["file" := Server.FileField("recording.webm")]))
    case Some(detail) => Server.Request("POST", Server.Unparsable(detail))
  }

  // ---------------------------------------------------------------------
  // The handlers

  /**
   * startRecording.  /start is asked first and the screen only after it
   * answered.  Any failure leaves the timer as it was and enables only the
   * start button.  It also leaves the recorder and the chunks, except when
   * `start(1000)` threw: by then a new, inactive recorder and an empty
   * buffer had replaced them.
   */
  function StartRecording(s: State, now: int, reply: Option<Server.Reply>, capture: Capture): (o: Outcome)
    ensures o.message == Success <==> Acknowledged(reply) && capture == Granted
    ensures o.message == Failure(PermissionDenied) <==> Acknowledged(reply) && capture == NotAllowed
    ensures !Acknowledged(reply) ==> o.message == Failure(RemoteFailed)
    ensures Acknowledged(reply) && (capture == CaptureError || capture == RecorderStartError) ==>
              o.message == Failure(CaptureFailed)
    ensures o.message.Success? ==>
              o.next.recorder == Recording && o.next.chunks == [] && o.next.clock == StartTimer(s.clock, now) &&
              forall cmd :: IsEnabled(o.next.controls, cmd) <==> cmd == Pause || cmd == Stop
    ensures !o.message.Success? ==>
              o.next.clock == s.clock && forall cmd :: IsEnabled(o.next.controls, cmd) <==> cmd == Start
    ensures !o.message.Success? && !(Acknowledged(reply) && capture == RecorderStartError) ==>
              o.next.recorder == s.recorder && o.next.chunks == s.chunks
    ensures Acknowledged(reply) && capture == RecorderStartError ==>
              o.message == Failure(CaptureFailed) && o.next.recorder == Inactive && o.next.chunks == []
  {
    var failed := s.(controls := UpdateButtonState(s.controls, Discard));
    if !Acknowledged(reply) then Outcome(failed, Failure(RemoteFailed))
    else match capture
      case NotAllowed => Outcome(failed, Failure(PermissionDenied))
      case CaptureError => Outcome(failed, Failure(CaptureFailed))
      case RecorderStartError => Outcome(failed.(recorder := Inactive, chunks := []), Failure(CaptureFailed))
      case Granted =>
        Outcome(State(Recording, [], StartTimer(s.clock, now), UpdateButtonState(s.controls, Start)), Success)
  }

  /** pauseRecording */
  function PauseRecording(s: State, now: int, reply: Option<Server.Reply>): (o: Outcome)
    ensures o.message == Failure(Rejected) <==> s.recorder != Recording
    ensures s.recorder != Recording ==> o.next == s
    ensures s.recorder == Recording ==>
              o.next.recorder == Paused && o.next.chunks == s.chunks && o.next.clock == PauseTimer(s.clock, now)
    ensures s.recorder == Recording ==> o.message == if Acknowledged(reply) then Info else Failure(RemoteFailed)
    ensures o.next.controls == if s.recorder == Recording && Acknowledged(reply)
                               then UpdateButtonState(s.controls, Pause) else s.controls
  {
    if s.recorder != Recording then Outcome(s, Failure(Rejected))
    else
      var paused := s.(recorder := Paused, clock := PauseTimer(s.clock, now));
      if Acknowledged(reply) then Outcome(paused.(controls := UpdateButtonState(s.controls, Pause)), Info)
      else Outcome(paused, Failure(RemoteFailed))
  }

  /** resumeRecording */
  function ResumeRecording(s: State, now: int, reply: Option<Server.Reply>): (o: Outcome)
    ensures o.message == Failure(Rejected) <==> s.recorder != Paused
    ensures s.recorder != Paused ==> o.next == s
    ensures s.recorder == Paused ==>
              o.next.recorder == Recording && o.next.chunks == s.chunks && o.next.clock == ResumeTimer(s.clock, now)
    ensures s.recorder == Paused ==> o.message == if Acknowledged(reply) then Success else Failure(RemoteFailed)
    ensures o.next.controls == if s.recorder == Paused && Acknowledged(reply)
                               then UpdateButtonState(s.controls, Resume) else s.controls
  {
    if s.recorder != Paused then Outcome(s, Failure(Rejected))
    else
      var resumed := s.(recorder := Recording, clock := ResumeTimer(s.clock, now));
      if Acknowledged(reply) then Outcome(resumed.(controls := UpdateButtonState(s.controls, Resume)), Success)
      else Outcome(resumed, Failure(RemoteFailed))
  }

  /** stopRecording */
  function StopRecording(s: State, reply: Option<Server.Reply>): (o: Outcome)
    ensures o.message == Failure(Rejected) <==> s.recorder != Recording && s.recorder != Paused
    ensures s.recorder != Recording && s.recorder != Paused ==> o.next == s
    ensures s.recorder == Recording || s.recorder == Paused ==>
              o.next.recorder == Inactive && o.next.chunks == s.chunks && o.next.clock == StopTimer(s.clock)
    ensures s.recorder == Recording || s.recorder == Paused ==>
              o.message == if Acknowledged(reply) then Success else Failure(RemoteFailed)
    ensures o.next.controls == if (s.recorder == Recording || s.recorder == Paused) && Acknowledged(reply)
                               then UpdateButtonState(s.controls, Stop) else s.controls
  {
    if s.recorder != Recording && s.recorder != Paused then Outcome(s, Failure(Rejected))
    else
      var stopped := s.(recorder := Inactive, clock := StopTimer(s.clock));
      if Acknowledged(reply) then Outcome(stopped.(controls := UpdateButtonState(s.controls, Stop)), Success)
      else Outcome(stopped, Failure(RemoteFailed))
  }

  /**
   * discardRecording: no guard; the chunks are dropped and the recorder
   * forgotten (not stopped) before /discard is asked.
   */
  function DiscardRecording(s: State, reply: Option<Server.Reply>): (o: Outcome)
    ensures o.next.chunks == [] && o.next.recorder == NoRecorder && o.next.clock == s.clock
    ensures o.message == if Acknowledged(reply) then Success else Failure(RemoteFailed)
    ensures o.next.controls == if Acknowledged(reply) then UpdateButtonState(s.controls, Discard) else s.controls
  {
    var cleared := s.(chunks := [], recorder := NoRecorder);
    if Acknowledged(reply) then Outcome(cleared.(controls := UpdateButtonState(s.controls, Discard)), Success)
    else Outcome(cleared, Failure(RemoteFailed))
  }

  /**
   * uploadRecording: refused locally when there is nothing to send; the
   * chunks and the recorder are cleared only once the upload is accepted.
   */
  function UploadRecording(s: State, reply: Option<Server.Reply>): (o: Outcome)
    ensures |s.chunks| == 0 ==> o == Outcome(s, Failure(Rejected))
    ensures |s.chunks| > 0 ==> o.message == if UploadAccepted(reply) then Success else Failure(RemoteFailed)
    ensures o.message != Success ==> o.next == s
    ensures o.message == Success ==>
              o.next.chunks == [] && o.next.recorder == NoRecorder && o.next.clock == s.clock &&
              forall cmd :: IsEnabled(o.next.controls, cmd) <==> cmd == Start
  {
    if |s.chunks| == 0 then Outcome(s, Failure(Rejected))
    else if UploadAccepted(reply) then
      Outcome(s.(chunks := [], recorder := NoRecorder, controls := UpdateButtonState(s.controls, Upload)), Success)
    else Outcome(s, Failure(RemoteFailed))
  }

  /** The 'dataavailable' listener: a chunk with bytes is appended, an empty one ignored. */
  function DataAvailable(s: State, chunk: Chunk): (r: State)
    ensures r.chunks == if |chunk.bytes| > 0 then s.chunks + [chunk] else s.chunks
    ensures r.(chunks := s.chunks) == s
  {
    if |chunk.bytes| > 0 then s.(chunks := s.chunks + [chunk]) else s
  }

  /**
   * The shared screen's tracks ended, as when the user stops sharing from
   * the browser: a live recorder stops on its own.  No handler of the page
   * runs, so the timer keeps ticking and the buttons stay as they were.
   */
  function SharingEnded(s: State): (r: State)
    ensures s.recorder == Recording || s.recorder == Paused ==> r == s.(recorder := Inactive)
    ensures s.recorder != Recording && s.recorder != Paused ==> r == s
  {
    if s.recorder == Recording || s.recorder == Paused then s.(recorder := Inactive) else s
  }

  /** The 'beforeunload' listener asks for confirmation: only while recording, not while paused. */
  predicate VetoUnload(s: State)
  {
    s.recorder == Recording
  }

  /** The handler behind each button. */
  function Dispatch(s: State, cmd: Command, now: int, reply: Option<Server.Reply>, capture: Capture): Outcome
  {
    match cmd
    case Start => StartRecording(s, now, reply, capture)
    case Pause => PauseRecording(s, now, reply)
    case Resume => ResumeRecording(s, now, reply)
    case Stop => StopRecording(s, reply)
    case Discard => DiscardRecording(s, reply)
    case Upload => UploadRecording(s, reply)
  }
}

=== FILE: controller_properties.dfy ===
/**
 * What the handlers of static/scripts.js guarantee, alone and in
 * sequence, and how they meet the replies of app.py.
 */
module ControllerProperties {
  import opened Wrappers
  import opened Elapsed
  import opened Controller
  import Server

  // ---------------------------------------------------------------------
  // Masks and the page's initial state

  const OnlyStart := Controls(false, true, true, true, true, true)
  const RecordingControls := Controls(true, false, true, false, true, true)
  const PausedControls := Controls(true, true, false, false, true, true)
  const StoppedControls := Controls(true, true, true, true, false, false)

  /** A fresh page: no recorder, no chunks, no timer, only the start button enabled. */
  function Initial(): State
  {
    State(NoRecorder, [], Clock(0, 0, false, false), OnlyStart)
  }

  /** 'pause' then 'resume' gives back the mask of a running recording. */
  lemma PauseResumeMasks(c: Controls)
    requires IsEnabled(c, Pause) && !IsEnabled(c, Resume)
    ensures UpdateButtonState(UpdateButtonState(c, Pause), Resume) == c
  {
  }

  // ---------------------------------------------------------------------
  // Local action first, no rollback

  /**
   * For pause, resume, stop and discard the reply decides only the buttons
   * and the message: the recorder, the chunks and the timer change the same
   * way whether the server answered or not.
   */
  lemma ReplyDecidesOnlyButtons(s: State, now: int, r1: Option<Server.Reply>, r2: Option<Server.Reply>)
    ensures PauseRecording(s, now, r1).next.(controls := s.controls) == PauseRecording(s, now, r2).next.(controls := s.controls)
    ensures ResumeRecording(s, now, r1).next.(controls := s.controls) == ResumeRecording(s, now, r2).next.(controls := s.controls)
    ensures StopRecording(s, r1).next.(controls := s.controls) == StopRecording(s, r2).next.(controls := s.controls)
    ensures DiscardRecording(s, r1).next.(controls := s.controls) == DiscardRecording(s, r2).next.(controls := s.controls)
  {
  }

  /** A start whose /start request failed never asks for the screen: the capture outcome is irrelevant. */
  lemma StartAsksServerFirst(s: State, now: int, reply: Option<Server.Reply>, c1: Capture, c2: Capture)
    requires !Acknowledged(reply)
    ensures StartRecording(s, now, reply, c1) == StartRecording(s, now, reply, c2)
    ensures StartRecording(s, now, reply, c1).message == Failure(RemoteFailed)
  {
  }

  /** An upload with nothing buffered is refused without looking at any reply. */
  lemma EmptyUploadNeverSent(s: State, r1: Option<Server.Reply>, r2: Option<Server.Reply>)
    requires s.chunks == []
    ensures UploadRecording(s, r1) == UploadRecording(s, r2) == Outcome(s, Failure(Rejected))
  {
  }

  // ---------------------------------------------------------------------
  // The timer across pause and resume

  /**
   * Pausing at t1 freezes the shown count at its value at t1; resuming at t2
   * continues from it, so the pause interval is not counted.
   */
  lemma PauseResumeContinuity(s: State, t1: int, t2: int, r1: Option<Server.Reply>, r2: Option<Server.Reply>)
    requires s.recorder == Recording && !s.clock.isPaused
    ensures var p := PauseRecording(s, t1, r1).next;
            p.recorder == Paused &&
            forall u :: ElapsedAt(p.clock, u) == ElapsedAt(s.clock, t1)
    ensures var q := ResumeRecording(PauseRecording(s, t1, r1).next, t2, r2).next;
            q.recorder == Recording && q.chunks == s.chunks && ElapsedAt(q.clock, t2) == ElapsedAt(s.clock, t1) &&
            forall u :: ElapsedAt(q.clock, u) == ElapsedAt(s.clock, t1) + (u - t2)
  {
  }

  /**
   * A recording stopped while paused leaves `isPaused` set and `pausedTime`
   * kept: the next recording's timer shows the old paused count and stays
   * frozen there while it records, until that recording is first paused.
   */
  lemma StopWhilePausedFreezesNextTimer(s: State, t1: int, now: int,
                                        r1: Option<Server.Reply>, r2: Option<Server.Reply>,
                                        r3: Option<Server.Reply>, r4: Option<Server.Reply>)
    requires s.recorder == Recording && !s.clock.isPaused
    requires Acknowledged(r4)
    ensures var paused := PauseRecording(s, t1, r1).next;
            var stopped := StopRecording(paused, r2).next;
            var discarded := DiscardRecording(stopped, r3).next;
            var restarted := StartRecording(discarded, now, r4, Granted).next;
            restarted.recorder == Recording &&
            forall u :: ElapsedAt(restarted.clock, u) == t1 - s.clock.startTime
  {
  }

  /**
   * The first pause of that restarted recording ends the freeze with a jump:
   * from then on the count shows the old paused count plus all the time since
   * the restart.
   */
  lemma RestartedTimerJumpsAtFirstPause(s: State, t1: int, now: int, t2: int,
                                        r1: Option<Server.Reply>, r2: Option<Server.Reply>,
                                        r3: Option<Server.Reply>, r4: Option<Server.Reply>,
                                        r5: Option<Server.Reply>)
    requires s.recorder == Recording && !s.clock.isPaused
    requires Acknowledged(r4)
    ensures var paused := PauseRecording(s, t1, r1).next;
            var stopped := StopRecording(paused, r2).next;
            var discarded := DiscardRecording(stopped, r3).next;
            var restarted := StartRecording(discarded, now, r4, Granted).next;
            var repaused := PauseRecording(restarted, t2, r5).next;
            repaused.recorder == Paused &&
            forall u :: ElapsedAt(repaused.clock, u) == (t1 - s.clock.startTime) + (t2 - now)
  {
  }

  /** After a start at t0 and a pause at t0 + 2500 on a fresh page the timer reads "00:00:02". */
  lemma TimerExample(t0: int, r1: Option<Server.Reply>, r2: Option<Server.Reply>)
    requires Acknowledged(r1)
    ensures var started := StartRecording(Initial(), t0, r1, Granted).next;
            var paused := PauseRecording(started, t0 + 2500, r2).next;
            forall u :: FormatElapsed(ElapsedAt(paused.clock, u)) == "00:00:02"
  {
    var started := StartRecording(Initial(), t0, r1, Granted).next;
    assert started.clock == StartTimer(Initial().clock, t0);
    var paused := PauseRecording(started, t0 + 2500, r2).next;
    assert paused.clock == PauseTimer(started.clock, t0 + 2500);
    assert forall u :: ElapsedAt(paused.clock, u) == 2500;
    assert FormatElapsed(2500) == "00:00:02" by {
      assert Split(2500) == Hms(0, 0, 2);
    }
  }

  // ---------------------------------------------------------------------
  // The chunk buffer

  /** The chunks with bytes, in order. */
  function NonEmpty(cs: seq<Chunk>): seq<Chunk>
  {
    if cs == [] then []
    else (if |cs[0].bytes| > 0 then [cs[0]] else []) + NonEmpty(cs[1..])
  }

  /** A series of 'dataavailable' events. */
  function DeliverAll(s: State, cs: seq<Chunk>): State
    decreases |cs|
  {
    if cs == [] then s else DeliverAll(DataAvailable(s, cs[0]), cs[1..])
  }

  /** Deliveries append exactly the chunks with bytes, in arrival order, and touch nothing else. */
  lemma {:induction false} DeliverAllAppends(s: State, cs: seq<Chunk>)
    ensures DeliverAll(s, cs) == s.(chunks := s.chunks + NonEmpty(cs))
    decreases |cs|
  {
    if cs != [] {
      var s' := DataAvailable(s, cs[0]);
      DeliverAllAppends(s', cs[1..]);
      assert s'.chunks + NonEmpty(cs[1..]) == s.chunks + NonEmpty(cs);
    }
  }

  // ---------------------------------------------------------------------
  // The unload veto

  /** The veto is on after a successful start or a resume, off after a pause, stop, discard or upload. */
  lemma UnloadVetoFollowsRecorder(s: State, now: int, reply: Option<Server.Reply>, capture: Capture)
    ensures StartRecording(s, now, reply, capture).message == Success ==> VetoUnload(StartRecording(s, now, reply, capture).next)
    ensures s.recorder == Recording ==> !VetoUnload(PauseRecording(s, now, reply).next)
    ensures s.recorder == Paused ==> VetoUnload(ResumeRecording(s, now, reply).next)
    ensures s.recorder == Recording ==> !VetoUnload(StopRecording(s, reply).next)
    ensures !VetoUnload(DiscardRecording(s, reply).next)
    ensures UploadRecording(s, reply).message == Success ==> !VetoUnload(UploadRecording(s, reply).next)
  {
  }

  // ---------------------------------------------------------------------
  // Runs of clicks under the buttons' discipline

  /** A click on a button, a chunk delivered by the recorder, or the end of screen sharing. */
  datatype Event =
    | Click(cmd: Command, now: int, reply: Option<Server.Reply>, capture: Capture)
    | Data(chunk: Chunk)
    | Ended

  /** A disabled button fires no click. */
  function Apply(s: State, e: Event): State
  {
    match e
    case Click(cmd, now, reply, capture) =>
      if IsEnabled(s.controls, cmd) then Dispatch(s, cmd, now, reply, capture).next else s
    case Data(chunk) => DataAvailable(s, chunk)
    case Ended => SharingEnded(s)
  }

  function Run(s: State, events: seq<Event>): State
    decreases |events|
  {
    if events == [] then s else Run(Apply(s, events[0]), events[1..])
  }

  /**
   * The buttons and the recorder agree: every mask reached is one of four,
   * and the start button is enabled only when no recorder is live.
   */
  predicate Coherent(s: State)
  {
    && (s.controls == OnlyStart || s.controls == RecordingControls ||
        s.controls == PausedControls || s.controls == StoppedControls)
    && (s.controls == OnlyStart ==> s.recorder == NoRecorder || s.recorder == Inactive)
    && (s.controls == RecordingControls || s.controls == PausedControls ==> s.recorder != NoRecorder)
    && (s.controls == StoppedControls ==> s.recorder == Inactive || s.recorder == NoRecorder)
  }

  lemma CoherentStep(s: State, e: Event)
    requires Coherent(s)
    ensures Coherent(Apply(s, e))
  {
  }

  /** Every run from a coherent state stays coherent. */
  lemma {:induction false} CoherentRun(s: State, events: seq<Event>)
    requires Coherent(s)
    ensures Coherent(Run(s, events))
    decreases |events|
  {
    if events != [] {
      CoherentStep(s, events[0]);
      CoherentRun(Apply(s, events[0]), events[1..]);
    }
  }

  /** So on a page driven by its buttons, a start never replaces a live recorder. */
  lemma StartNeverReplacesLiveRecorder(events: seq<Event>)
    ensures var s := Run(Initial(), events);
            IsEnabled(s.controls, Start) ==> s.recorder != Recording && s.recorder != Paused
  {
    CoherentRun(Initial(), events);
  }

  /**
   * When /stop fails, the recorder is stopped but the buttons still offer
   * only pause or resume and stop, which all refuse an inactive recorder:
   * no run of clicks ever reaches discard or upload, and only chunks can
   * still arrive.
   */
  lemma {:induction false} FailedStopStrandsSession(s: State, events: seq<Event>)
    requires s.recorder == Inactive
    requires s.controls == RecordingControls || s.controls == PausedControls
    ensures Run(s, events).recorder == Inactive && Run(s, events).controls == s.controls
    ensures Run(s, events).clock == s.clock
    decreases |events|
  {
    if events != [] {
      var s' := Apply(s, events[0]);
      assert s'.recorder == Inactive && s'.controls == s.controls && s'.clock == s.clock;
      FailedStopStrandsSession(s', events[1..]);
    }
  }

  /**
   * Ending the screen share from the browser lands in the same stranded
   * state, with the timer still ticking for good.
   */
  lemma SharingEndedStrandsSession(s: State, events: seq<Event>)
    requires s.recorder == Recording || s.recorder == Paused
    requires s.controls == RecordingControls || s.controls == PausedControls
    ensures var ended := SharingEnded(s);
            Run(ended, events).recorder == Inactive && Run(ended, events).controls == s.controls &&
            Run(ended, events).clock == s.clock
  {
    FailedStopStrandsSession(SharingEnded(s), events);
  }

  /** A failed /stop from a recording or paused session lands in that stranded state. */
  lemma FailedStopAckLeavesButtons(s: State, reply: Option<Server.Reply>)
    requires s.recorder == Recording || s.recorder == Paused
    requires s.controls == RecordingControls || s.controls == PausedControls
    requires !Acknowledged(reply)
    ensures StopRecording(s, reply).next.recorder == Inactive
    ensures StopRecording(s, reply).next.controls == s.controls
  {
  }

  // ---------------------------------------------------------------------
  // Against the server

  /** The control endpoints always answer 2xx, so their handlers never fail on the reply. */
  lemma ControlRepliesAcknowledged(e: Server.Endpoint)
    ensures Acknowledged(Some(Server.ControlReply(e)))
  {
  }

  /** With the server reachable, pause and resume commit their masks. */
  lemma ServerCommitsPauseResume(s: State, now: int)
    ensures s.recorder == Recording ==>
              PauseRecording(s, now, Some(Server.ControlReply(Server.PauseEndpoint))).message == Info
    ensures s.recorder == Paused ==>
              ResumeRecording(s, now, Some(Server.ControlReply(Server.ResumeEndpoint))).message == Success
  {
    ControlRepliesAcknowledged(Server.PauseEndpoint);
    ControlRepliesAcknowledged(Server.ResumeEndpoint);
  }

  /**
   * The page's upload passes every check of /save once its body is read: it
   * succeeds exactly when the body is read and the file saved.  A body the
   * server cannot read (one over MAX_CONTENT_LENGTH) gets a 500.
   */
  lemma UploadSucceedsIffSaved(s: State, id: string, bodyError: Option<string>, save: Server.SaveOutcome)
    requires |s.chunks| > 0
    ensures var reply := Server.UploadVideo(UploadRequest(bodyError), id, save);
            UploadRecording(s, Some(reply)).message == Success <==> bodyError.None? && save.Saved?
    ensures bodyError.Some? ==> Server.UploadVideo(UploadRequest(bodyError), id, save).status == 500
  {
  }

  /** A reply of /save counts as accepted on the page exactly when it is the 200 of a stored file. */
  lemma UploadAcceptedIffStored(req: Server.Request, id: string, save: Server.SaveOutcome)
    ensures UploadAccepted(Some(Server.UploadVideo(req, id, save))) <==> Server.UploadVideo(req, id, save).status == 200
  {
  }

  /** Start, pause, resume and stop with the server answering: the recording is ready to upload. */
  lemma HappyPath(t0: int, t1: int, t2: int, c1: Chunk, c2: Chunk)
    ensures var s1 := StartRecording(Initial(), t0, Some(Server.ControlReply(Server.StartEndpoint)), Granted).next;
            var s2 := PauseRecording(DataAvailable(s1, c1), t1, Some(Server.ControlReply(Server.PauseEndpoint))).next;
            var s3 := ResumeRecording(s2, t2, Some(Server.ControlReply(Server.ResumeEndpoint))).next;
            var s4 := StopRecording(DataAvailable(s3, c2), Some(Server.ControlReply(Server.StopEndpoint))).next;
            s4.recorder == Inactive && s4.controls == StoppedControls &&
            s4.chunks == NonEmpty([c1, c2]) &&
            forall u :: ElapsedAt(s4.clock, u) == (t1 - t0) + (u - t2)
  {
    var s1 := StartRecording(Initial(), t0, Some(Server.ControlReply(Server.StartEndpoint)), Granted).next;
    assert s1.clock == StartTimer(Initial().clock, t0);
    var s2 := PauseRecording(DataAvailable(s1, c1), t1, Some(Server.ControlReply(Server.PauseEndpoint))).next;
    assert s2.clock == PauseTimer(s1.clock, t1);
    var s3 := ResumeRecording(s2, t2, Some(Server.ControlReply(Server.ResumeEndpoint))).next;
    assert s3.clock == ResumeTimer(s2.clock, t2);
    var s4 := StopRecording(DataAvailable(s3, c2), Some(Server.ControlReply(Server.StopEndpoint))).next;
    assert s4.clock == StopTimer(s3.clock);
    assert NonEmpty([c1, c2]) == NonEmpty([c1]) + NonEmpty([c2]) by {
      assert [c1, c2][1..] == [c2];
      assert [c2][1..] == [];
    }
  }
}

=== FILE: elapsed.dfy ===
/**
 * The elapsed-time display of the recording page (`updateTimer`).
 *
 * A millisecond count is split into hours, minutes and seconds with
 * JavaScript's `Math.floor` and `%`, and each field is rendered with
 * `String(n).padStart(2, '0')`, the three joined by ':'.  Hours are
 * unbounded and never wrap.  The count is an `int`: a clock that steps
 * backwards gives a negative count, and the model keeps JavaScript's
 * meaning for that case too (a truncating `%`, a leading '-').
 */
module Elapsed {
  import opened Wrappers

  const MsPerSecond: int := 1000
  const MsPerMinute: int := 60000
  const MsPerHour: int := 3600000

  /** The quotient of a division truncated toward zero, as C and JavaScript divide. */
  function JsQuot(a: int, d: int): int
    requires d > 0
  {
    if a >= 0 then a / d else -((-a) / d)
  }

  /**
   * JavaScript's `%`: the remainder left by the truncated quotient, so it
   * takes the sign of the dividend.
   */
  function JsRem(a: int, d: int): (r: int)
    requires d > 0
    ensures a == JsQuot(a, d) * d + r
    ensures a >= 0 ==> 0 <= r < d
    ensures a < 0 ==> -d < r <= 0
  {
    if a >= 0 then a % d else -((-a) % d)
  }

  datatype Hms = Hms(hours: int, minutes: int, seconds: int)

  /** The number of milliseconds at which a displayed triple starts. */
  function Millis(t: Hms): int
  {
    t.hours * MsPerHour + t.minutes * MsPerMinute + t.seconds * MsPerSecond
  }

  /** A triple that `updateTimer` can show for a non-negative count. */
  predicate InRange(t: Hms)
  {
    t.hours >= 0 && 0 <= t.minutes < 60 && 0 <= t.seconds < 60
  }

  /**
   * The three fields of `updateTimer`.  `Math.floor(x / d)` for a positive
   * `d` is floor division, which is Dafny's `/`; the inner `%` is
   * JavaScript's.
   */
  function Split(ms: int): (t: Hms)
    ensures ms >= 0 ==> InRange(t)
    ensures ms >= 0 ==> Millis(t) <= ms < Millis(t) + MsPerSecond
  {
    var minutes := JsRem(ms, MsPerHour) / MsPerMinute;
    var seconds := JsRem(ms, MsPerMinute) / MsPerSecond;
    if ms >= 0 then
      SplitArith(ms);
      Hms(ms / MsPerHour, minutes, seconds)
    else
      Hms(ms / MsPerHour, minutes, seconds)
  }

  /** The arithmetic behind `Split` for a non-negative count, where JavaScript's `%` is Dafny's. */
  lemma SplitArith(ms: int)
    requires ms >= 0
    ensures var t := Hms(ms / MsPerHour, (ms % MsPerHour) / MsPerMinute, (ms % MsPerMinute) / MsPerSecond);
            InRange(t) && Millis(t) <= ms < Millis(t) + MsPerSecond
  {
    var h, r1 := ms / MsPerHour, ms % MsPerHour;
    var m, r2 := r1 / MsPerMinute, r1 % MsPerMinute;
    assert ms == (h * 60 + m) * MsPerMinute + r2;
    assert ms % MsPerMinute == r2;
  }

  // ---------------------------------------------------------------------
  // Rendering

  function DigitChar(d: int): (c: char)
    requires 0 <= d < 10
    ensures '0' <= c <= '9'
  {
    ('0' as int + d) as char
  }

  /** Every character is a decimal digit. */
  predicate IsDecimal(s: string)
  {
    forall i :: 0 <= i < |s| ==> '0' <= s[i] <= '9'
  }

  /** `String(n)` for a natural number: its decimal digits. */
  function Digits(n: nat): (s: string)
    ensures 1 <= |s|
    ensures IsDecimal(s)
    ensures n < 10 <==> |s| == 1
    ensures n > 0 ==> s[0] != '0'
  {
    if n < 10 then [DigitChar(n)] else Digits(n / 10) + [DigitChar(n % 10)]
  }

  /** `String(n)` for an integer. */
  function JsString(n: int): string
  {
    if n < 0 then "-" + Digits(-n) else Digits(n)
  }

  /** `s.padStart(2, '0')` */
  function PadStart2(s: string): (r: string)
    ensures |r| == if |s| < 2 then 2 else |s|
    ensures r[|r| - |s|..] == s
    ensures forall i :: 0 <= i < |r| - |s| ==> r[i] == '0'
  {
    if |s| < 2 then seq(2 - |s|, _ => '0') + s else s
  }

  function Pad2(n: int): string
  {
    PadStart2(JsString(n))
  }

  /** The three fields padded and joined by ':'. */
  function Render(t: Hms): string
  {
    Pad2(t.hours) + ":" + Pad2(t.minutes) + ":" + Pad2(t.seconds)
  }

  /**
   * The text that `updateTimer` writes for an elapsed count of `ms`.  For a
   * non-negative count it is decimal digits around two ':', reads back as
   * exactly the split of the count, and is "HH:MM:SS" below 100 hours,
   * longer from then on.
   */
  function FormatElapsed(ms: int): (f: string)
    ensures ms >= 0 ==> ParseElapsed(f) == Some(Split(ms))
    ensures ms >= 0 ==> DigitsAroundColons(f)
    ensures ms >= 0 ==> |f| >= 8 && (Split(ms).hours < 100 <==> |f| == 8)
    ensures ms >= 0 ==> (f[0] == '0' <==> Split(ms).hours < 10)
  {
    if ms >= 0 then RenderReadsBack(Split(ms)); Render(Split(ms))
    else Render(Split(ms))
  }

  /** An in-range triple renders as digits around two ':' and reads back as itself. */
  lemma RenderReadsBack(t: Hms)
    requires InRange(t)
    ensures var f := Render(t);
            ParseElapsed(f) == Some(t) && |f| >= 8 && (t.hours < 100 <==> |f| == 8) &&
            DigitsAroundColons(f) && (f[0] == '0' <==> t.hours < 10)
  {
    Pad2Field(t.hours);
    Pad2Field(t.minutes);
    Pad2Field(t.seconds);
    JoinedReadsBack(t, Pad2(t.hours), Pad2(t.minutes), Pad2(t.seconds));
  }

  /** Fields that read back as the triple, joined by ':', read back as the triple. */
  lemma JoinedReadsBack(t: Hms, hs: string, mm: string, ss: string)
    requires IsDecimal(hs) && IsDecimal(mm) && IsDecimal(ss)
    requires Value(hs) == t.hours && Value(mm) == t.minutes && Value(ss) == t.seconds
    requires |hs| >= 2 && |mm| == 2 && |ss| == 2
    ensures var f := hs + ":" + mm + ":" + ss;
            ParseElapsed(f) == Some(t) && |f| == |hs| + 6 && DigitsAroundColons(f) && f[0] == hs[0]
  {
    ParseFields(hs, mm, ss);
  }

  // ---------------------------------------------------------------------
  // Reading a display back

  function DigitValue(c: char): int
  {
    c as int - '0' as int
  }

  /** The number that a string of decimal digits denotes. */
  function Value(s: string): int
  {
    if s == [] then 0 else Value(s[..|s| - 1]) * 10 + DigitValue(s[|s| - 1])
  }

  /**
   * Reads "H:MM:SS" from the right: two digits of seconds, two of minutes,
   * and the digits before the second ':' from the end as the hours.  Any
   * other character where a digit belongs makes the text unreadable.
   */
  function ParseElapsed(s: string): Option<Hms>
  {
    if |s| < 8 || s[|s| - 6] != ':' || s[|s| - 3] != ':' then None
    else
      var hs, mm, ss := s[..|s| - 6], s[|s| - 5..|s| - 3], s[|s| - 2..];
      if IsDecimal(hs) && IsDecimal(mm) && IsDecimal(ss) then Some(Hms(Value(hs), Value(mm), Value(ss)))
      else None
  }

  /** At least eight characters: ':' third and sixth from the end, decimal digits everywhere else. */
  predicate DigitsAroundColons(f: string)
  {
    |f| >= 8 && f[|f| - 6] == ':' && f[|f| - 3] == ':' &&
    forall i :: 0 <= i < |f| && i != |f| - 6 && i != |f| - 3 ==> '0' <= f[i] <= '9'
  }

  /**
   * A text is readable as a display exactly when it is decimal digits
   * everywhere but at two ':', which sit third and sixth from the end.
   */
  lemma ParsedIsDecimal(s: string)
    ensures ParseElapsed(s).Some? <==> DigitsAroundColons(s)
  {
    if |s| >= 8 && s[|s| - 6] == ':' && s[|s| - 3] == ':' {
      var hs, mm, ss := s[..|s| - 6], s[|s| - 5..|s| - 3], s[|s| - 2..];
      assert forall i :: 0 <= i < |hs| ==> hs[i] == s[i];
      assert forall i :: 0 <= i < |mm| ==> mm[i] == s[|s| - 5 + i];
      assert forall i :: 0 <= i < |ss| ==> ss[i] == s[|s| - 2 + i];
      if IsDecimal(hs) && IsDecimal(mm) && IsDecimal(ss) {
        forall i | 0 <= i < |s| && i != |s| - 6 && i != |s| - 3
          ensures '0' <= s[i] <= '9'
        {
          if i < |s| - 6 {
            assert s[i] == hs[i];
          } else if i < |s| - 3 {
            assert s[i] == mm[i - (|s| - 5)];
          } else {
            assert s[i] == ss[i - (|s| - 2)];
          }
        }
      }
    }
  }

  /** A text with anything but digits around its ':'s is not a display. */
  lemma NonDigitsUnreadable()
    ensures ParseElapsed("00:00:/?") == None
    ensures ParseElapsed("00:0a:00") == None
    ensures ParseElapsed("-1:00:00") == None
  {
    assert "00:00:/?"[6..][0] == '/';
    assert "00:0a:00"[3..5][1] == 'a';
    assert "-1:00:00"[..2][0] == '-';
  }

  // ---------------------------------------------------------------------
  // Arithmetic of the split

  /** Reference definition: the split is the only in-range triple whose second contains `ms`. */
  lemma SplitUnique(ms: int, t: Hms)
    requires ms >= 0 && InRange(t)
    ensures t == Split(ms) <==> Millis(t) <= ms < Millis(t) + MsPerSecond
  {
    if Millis(t) <= ms < Millis(t) + MsPerSecond {
      var n := t.hours * 3600 + t.minutes * 60 + t.seconds;
      assert Millis(t) == n * MsPerSecond;
      assert n == ms / MsPerSecond;
      SplitTotalSeconds(ms);
      SecondsUnique(t, Split(ms));
    }
  }

  /** Two in-range triples that count the same number of seconds are the same. */
  lemma SecondsUnique(t: Hms, u: Hms)
    requires InRange(t) && InRange(u)
    requires t.hours * 3600 + t.minutes * 60 + t.seconds == u.hours * 3600 + u.minutes * 60 + u.seconds
    ensures t == u
  {
    var a, b := t.hours * 60 + t.minutes, u.hours * 60 + u.minutes;
    assert a * 60 + t.seconds == b * 60 + u.seconds;
    assert a == b && t.seconds == u.seconds;
    assert t.hours * 60 + t.minutes == u.hours * 60 + u.minutes;
  }

  /** The display counts whole seconds: it depends on `ms / 1000` only. */
  lemma SplitTotalSeconds(ms: int)
    requires ms >= 0
    ensures Split(ms).hours * 3600 + Split(ms).minutes * 60 + Split(ms).seconds == ms / MsPerSecond
  {
  }

  /** As time advances the displayed triple never goes back. */
  lemma DisplayNeverRegresses(a: int, b: int)
    requires 0 <= a <= b
    ensures var s, t := Split(a), Split(b);
            s.hours * 3600 + s.minutes * 60 + s.seconds <= t.hours * 3600 + t.minutes * 60 + t.seconds
  {
    SplitTotalSeconds(a);
    SplitTotalSeconds(b);
  }

  // ---------------------------------------------------------------------
  // The rendering round-trips

  lemma {:induction false} ValueDigits(n: nat)
    ensures Value(Digits(n)) == n
  {
    var s := Digits(n);
    if n >= 10 {
      ValueDigits(n / 10);
      assert s[..|s| - 1] == Digits(n / 10);
    }
  }

  /** A single digit is padded with one '0'. */
  lemma Pad2OneDigit(n: int)
    requires 0 <= n < 10
    ensures Pad2(n) == ['0', DigitChar(n)]
    ensures Value(Pad2(n)) == n
  {
    assert JsString(n) == Digits(n) == [DigitChar(n)];
    var p := Pad2(n);
    assert p == PadStart2([DigitChar(n)]);
    assert p == ['0', DigitChar(n)];
    assert p[..1] == ['0'];
    assert Value(p) == Value(['0']) * 10 + DigitValue(DigitChar(n));
  }

  /** A non-negative field is padded to at least two digits and reads back as itself. */
  lemma Pad2Field(n: int)
    requires n >= 0
    ensures |Pad2(n)| >= 2 && (n < 100 <==> |Pad2(n)| == 2)
    ensures IsDecimal(Pad2(n))
    ensures Value(Pad2(n)) == n
    ensures Pad2(n)[0] == '0' <==> n < 10
  {
    if n < 10 {
      Pad2OneDigit(n);
    } else {
      ValueDigits(n);
      assert Pad2(n) == Digits(n);
      if n < 100 {
        assert Digits(n / 10) == [DigitChar(n / 10)];
      } else {
        assert |Digits(n / 10)| >= 2;
      }
    }
  }

  /** Where the fields of an assembled display sit. */
  lemma FieldPositions(hs: string, mm: string, ss: string)
    requires |hs| >= 2 && |mm| == 2 && |ss| == 2
    ensures var f := hs + ":" + mm + ":" + ss;
            |f| == |hs| + 6 && f[|f| - 6] == ':' && f[|f| - 3] == ':' &&
            f[..|f| - 6] == hs && f[|f| - 5..|f| - 3] == mm && f[|f| - 2..] == ss
  {
  }

  /** A display assembled from fields of decimal digits, two for minutes and seconds, reads back field by field. */
  lemma ParseFields(hs: string, mm: string, ss: string)
    requires |hs| >= 2 && |mm| == 2 && |ss| == 2
    requires IsDecimal(hs) && IsDecimal(mm) && IsDecimal(ss)
    ensures var f := hs + ":" + mm + ":" + ss;
            ParseElapsed(f) == Some(Hms(Value(hs), Value(mm), Value(ss))) && |f| == |hs| + 6 &&
            DigitsAroundColons(f)
  {
    FieldPositions(hs, mm, ss);
    ParsedIsDecimal(hs + ":" + mm + ":" + ss);
  }

  /** Two instants within the same whole second display the same text. */
  lemma SameSecondSameText(a: int, b: int)
    requires a >= 0 && b >= 0 && a / MsPerSecond == b / MsPerSecond
    ensures FormatElapsed(a) == FormatElapsed(b)
  {
    SplitTotalSeconds(a);
    SplitTotalSeconds(b);
    SplitUnique(b, Split(a));
  }
}

=== FILE: scripts.dfy ===
/**
 * The module globals of static/scripts.js as one object, and the event
 * handlers as methods that update its fields in place, in the order the
 * script does.  Each handler is specified by the function of the same
 * name in module Controller: the new state is that function of the old
 * state and the inputs, and the message returned is the last one shown.
 */
module Scripts {
  import opened Wrappers
  import opened Elapsed
  import opened Controller
  import Server

  class Session {
    var mediaRecorder: Recorder
    var recordedChunks: seq<Chunk>
    var startTime: int
    var pausedTime: int
    var isPaused: bool
    var timerRunning: bool
    var startDisabled: bool
    var pauseDisabled: bool
    var resumeDisabled: bool
    var stopDisabled: bool
    var discardDisabled: bool
    var uploadDisabled: bool

    function Clock(): Clock
      reads this
    {
      Controller.Clock(startTime, pausedTime, isPaused, timerRunning)
    }

    function Controls(): Controls
      reads this
    {
      Controller.Controls(startDisabled, pauseDisabled, resumeDisabled, stopDisabled, discardDisabled, uploadDisabled)
    }

    function State(): State
      reads this
    {
      Controller.State(mediaRecorder, recordedChunks, Clock(), Controls())
    }

    /**
     * The page as loaded: no recorder, no chunks, `pausedTime` 0 and
     * `isPaused` false; `startTime` has no value yet and is taken as 0.  The
     * buttons start as the page markup sets them.
     */
    constructor (buttons: Controls)
      ensures State() == Controller.State(NoRecorder, [], Controller.Clock(0, 0, false, false), buttons)
    {
      mediaRecorder := NoRecorder;
      recordedChunks := [];
      startTime, pausedTime, isPaused, timerRunning := 0, 0, false, false;
      startDisabled, pauseDisabled, resumeDisabled := buttons.start, buttons.pause, buttons.resume;
      stopDisabled, discardDisabled, uploadDisabled := buttons.stop, buttons.discard, buttons.upload;
    }

    // -------------------------------------------------------------------
    // The timer

    /**
     * updateTimer: the text written at `now`.  It reads back as the split of
     * `pausedTime` while paused and of `now - startTime` otherwise.
     */
    function TimerText(now: int): (text: string)
      reads this
      ensures var ms := if isPaused then pausedTime else now - startTime;
              ms >= 0 ==> ParseElapsed(text) == Some(Split(ms)) && DigitsAroundColons(text)
    {
      var ms := Controller.ElapsedAt(Clock(), now);
      assert ms == if isPaused then pausedTime else now - startTime;
      FormatElapsed(ms)
    }

    method StartTimer(now: int)
      modifies this`startTime, this`timerRunning
      ensures Clock() == Controller.StartTimer(old(Clock()), now)
    {
      startTime := now - pausedTime;
      timerRunning := true;
    }

    method PauseTimer(now: int)
      modifies this`pausedTime, this`isPaused, this`timerRunning
      ensures Clock() == Controller.PauseTimer(old(Clock()), now)
    {
      timerRunning := false;
      pausedTime := now - startTime;
      isPaused := true;
    }

    method ResumeTimer(now: int)
      modifies this`startTime, this`isPaused, this`timerRunning
      ensures Clock() == Controller.ResumeTimer(old(Clock()), now)
    {
      isPaused := false;
      startTime := now - pausedTime;
      timerRunning := true;
    }

    method StopTimer()
      modifies this`timerRunning
      ensures Clock() == Controller.StopTimer(old(Clock()))
    {
      timerRunning := false;
    }

    // -------------------------------------------------------------------
    // The buttons

    method UpdateButtonState(action: Command)
      modifies this`startDisabled, this`pauseDisabled, this`resumeDisabled,
               this`stopDisabled, this`discardDisabled, this`uploadDisabled
      ensures Controls() == Controller.UpdateButtonState(old(Controls()), action)
    {
      match action
      case Start =>
        startDisabled, pauseDisabled, resumeDisabled := true, false, true;
        stopDisabled, discardDisabled, uploadDisabled := false, true, true;
      case Pause =>
        pauseDisabled := true;
        resumeDisabled := false;
      case Resume =>
        pauseDisabled := false;
        resumeDisabled := true;
      case Stop =>
        startDisabled, pauseDisabled, resumeDisabled := true, true, true;
        stopDisabled, discardDisabled, uploadDisabled := true, false, false;
      case Discard =>
        startDisabled, pauseDisabled, resumeDisabled := false, true, true;
        stopDisabled, discardDisabled, uploadDisabled := true, true, true;
      case Upload =>
        startDisabled, pauseDisabled, resumeDisabled := false, true, true;
        stopDisabled, discardDisabled, uploadDisabled := true, true, true;
    }

    // -------------------------------------------------------------------
    // The handlers

    method StartRecording(now: int, reply: Option<Server.Reply>, capture: Capture) returns (message: Message)
      modifies this
      ensures var o := Controller.StartRecording(old(State()), now, reply, capture);
              State() == o.next && message == o.message
    {
      if !Acknowledged(reply) {
        message := Failure(RemoteFailed);
      } else if capture == NotAllowed {
        message := Failure(PermissionDenied);
      } else if capture == CaptureError {
        message := Failure(CaptureFailed);
      } else if capture == RecorderStartError {
        mediaRecorder := Inactive;
        recordedChunks := [];
        message := Failure(CaptureFailed);
      } else {
        mediaRecorder := Recording;
        recordedChunks := [];
        StartTimer(now);
        UpdateButtonState(Start);
        return Success;
      }
      UpdateButtonState(Discard);
    }

    method PauseRecording(now: int, reply: Option<Server.Reply>) returns (message: Message)
      modifies this
      ensures var o := Controller.PauseRecording(old(State()), now, reply);
              State() == o.next && message == o.message
    {
      if mediaRecorder == Recording {
        mediaRecorder := Paused;
        PauseTimer(now);
        if Acknowledged(reply) {
          UpdateButtonState(Pause);
          message := Info;
        } else {
          message := Failure(RemoteFailed);
        }
      } else {
        message := Failure(Rejected);
      }
    }

    method ResumeRecording(now: int, reply: Option<Server.Reply>) returns (message: Message)
      modifies this
      ensures var o := Controller.ResumeRecording(old(State()), now, reply);
              State() == o.next && message == o.message
    {
      if mediaRecorder == Paused {
        mediaRecorder := Recording;
        ResumeTimer(now);
        if Acknowledged(reply) {
          UpdateButtonState(Resume);
          message := Success;
        } else {
          message := Failure(RemoteFailed);
        }
      } else {
        message := Failure(Rejected);
      }
    }

    method StopRecording(reply: Option<Server.Reply>) returns (message: Message)
      modifies this
      ensures var o := Controller.StopRecording(old(State()), reply);
              State() == o.next && message == o.message
    {
      if mediaRecorder == Recording || mediaRecorder == Paused {
        mediaRecorder := Inactive;
        StopTimer();
        if Acknowledged(reply) {
          UpdateButtonState(Stop);
          message := Success;
        } else {
          message := Failure(RemoteFailed);
        }
      } else {
        message := Failure(Rejected);
      }
    }

    method DiscardRecording(reply: Option<Server.Reply>) returns (message: Message)
      modifies this
      ensures var o := Controller.DiscardRecording(old(State()), reply);
              State() == o.next && message == o.message
    {
      recordedChunks := [];
      if mediaRecorder != NoRecorder {
        mediaRecorder := NoRecorder;
      }
      if Acknowledged(reply) {
        UpdateButtonState(Discard);
        message := Success;
      } else {
        message := Failure(RemoteFailed);
      }
    }

    method UploadRecording(reply: Option<Server.Reply>) returns (message: Message)
      modifies this
      ensures var o := Controller.UploadRecording(old(State()), reply);
              State() == o.next && message == o.message
    {
      if |recordedChunks| == 0 {
        return Failure(Rejected);
      }
      if UploadAccepted(reply) {
        UpdateButtonState(Upload);
        message := Success;
        recordedChunks := [];
        if mediaRecorder != NoRecorder {
          mediaRecorder := NoRecorder;
        }
      } else {
        message := Failure(RemoteFailed);
      }
    }

    /** The 'dataavailable' listener attached by startRecording. */
    method OnDataAvailable(chunk: Chunk)
      modifies this`recordedChunks
      ensures State() == Controller.DataAvailable(old(State()), chunk)
    {
      if |chunk.bytes| > 0 {
        recordedChunks := recordedChunks + [chunk];
      }
    }

    /** The 'beforeunload' listener: whether it asks the user to confirm leaving. */
    method OnBeforeUnload() returns (veto: bool)
      ensures veto <==> VetoUnload(State())
      ensures veto ==> mediaRecorder == Recording
      ensures mediaRecorder == Paused ==> !veto
    {
      veto := mediaRecorder == Recording;
    }
  }
}

=== FILE: server.dfy ===
/**
 * The Flask application (app.py) as pure decisions: the extension check
 * `allowed_file`, the ordered request checks of the upload endpoint
 * `/save`, and the constant replies of the control endpoints.  A reply is
 * an HTTP status with the JSON body that `jsonify` produces.
 */
module Server {
  import opened Wrappers

  /** ALLOWED_EXTENSIONS */
  const AllowedExtensions: set<string> := {"webm", "mp4"}

  // ---------------------------------------------------------------------
  // allowed_file

  /**
   * `str.lower()` on one character.  Only ASCII letters are mapped: no
   * other character lowers to a letter of "webm" or "mp4", so the decision
   * of `allowed_file` is the same as with full Unicode lowering.
   */
  function LowerChar(c: char): (r: char)
    ensures !('A' <= r <= 'Z')
    ensures 'A' <= c <= 'Z' ==> r as int == c as int + 32
    ensures !('A' <= c <= 'Z') ==> r == c
  {
    if 'A' <= c <= 'Z' then (c as int + 32) as char else c
  }

  /** `str.lower()`: character by character, so lengths and positions are kept. */
  function Lower(s: string): (r: string)
    ensures |r| == |s|
    ensures forall i :: 0 <= i < |s| ==> r[i] == LowerChar(s[i])
  {
    seq(|s|, i requires 0 <= i < |s| => LowerChar(s[i]))
  }

  /** The index of the last '.', where `rsplit('.', 1)` cuts. */
  function LastDot(s: string): (r: Option<nat>)
    ensures r.None? <==> '.' !in s
    ensures r.Some? ==> r.value < |s| && s[r.value] == '.' && '.' !in s[r.value + 1..]
  {
    if s == [] then None
    else if s[|s| - 1] == '.' then Some(|s| - 1)
    else
      var r := LastDot(s[..|s| - 1]);
      assert r.Some? ==> s[r.value + 1..] == s[..|s| - 1][r.value + 1..] + [s[|s| - 1]];
      r
  }

  /** `filename.rsplit('.', 1)[1]`: the text after the last '.' */
  function Extension(filename: string): string
    requires '.' in filename
  {
    filename[LastDot(filename).value + 1..]
  }

  /**
   * allowed_file: a '.' is present and the lowered extension is allowed.  A
   * name without a '.' is refused, and an accepted name ends in a '.'
   * followed by three or four letters.
   */
  function AllowedFile(filename: string): (r: bool)
    ensures '.' !in filename ==> !r
    ensures r ==> var k := LastDot(filename).value;
                  |filename| - k == 4 || |filename| - k == 5
  {
    '.' in filename && Lower(Extension(filename)) in AllowedExtensions
  }

  // ---------------------------------------------------------------------
  // Replies

  /** The JSON bodies the endpoints send. */
  datatype Body =
    | MessageBody(message: string)
    | ErrorBody(error: string)
    | StoredBody(message: string, filename: string)

  datatype Reply = Reply(status: int, body: Body)

  // ---------------------------------------------------------------------
  // upload_video

  /** An uploaded part of a multipart body, a werkzeug FileStorage. */
  datatype FileField = FileField(filename: string)

  /**
   * `request.files`: the file parts of the body by field name, or the
   * message of the exception raised while the body is read (a body over
   * MAX_CONTENT_LENGTH raises RequestEntityTooLarge there).
   */
  datatype Form = Parsed(files: map<string, FileField>) | Unparsable(detail: string)

  /** `request.method` and `request.files`. */
  datatype Request = Request(verb: string, form: Form)

  /** What `video_file.save(file_path)` did: saved, or raised with a message. */
  datatype SaveOutcome = Saved | SaveFailed(detail: string)

  /** A FileStorage is truthy when it names a file. */
  predicate Truthy(f: FileField)
  {
    f.filename != ""
  }

  /** The request passes every check before the save: the save is attempted. */
  predicate ReachesSave(req: Request)
  {
    && req.verb == "POST"
    && req.form.Parsed?
    && "file" in req.form.files
    && req.form.files["file"].filename != ""
  }

  /**
   * upload_video.  `id` is the text of `uuid.uuid4()` and `save` the outcome
   * of writing the part to the upload folder.
   */
  function UploadVideo(req: Request, id: string, save: SaveOutcome): (r: Reply)
    ensures r.status == 200 || r.status == 400 || r.status == 405 || r.status == 500
    ensures req.verb != "POST" <==> r.status == 405
    ensures r.status == 200 <==> ReachesSave(req) && save.Saved?
    ensures r.status == 200 ==> r.body == StoredBody("Video uploaded successfully", id + ".webm")
    ensures ReachesSave(req) && save.SaveFailed? ==> r == Reply(500, ErrorBody("Error saving file: " + save.detail))
  {
    if req.verb != "POST" then Reply(405, ErrorBody("Only POST method is allowed"))
    else match req.form
      case Unparsable(detail) => Reply(500, ErrorBody("Server error: " + detail))
      case Parsed(files) =>
        if "file" !in files then Reply(400, ErrorBody("No file part in the request"))
        else
          var videoFile := files["file"];
          if videoFile.filename == "" then Reply(400, ErrorBody("No file selected"))
          else if Truthy(videoFile) then
            match save
            case Saved => Reply(200, StoredBody("Video uploaded successfully", id + ".webm"))
            case SaveFailed(detail) => Reply(500, ErrorBody("Error saving file: " + detail))
          else Reply(400, ErrorBody("No valid file found"))
  }

  // ---------------------------------------------------------------------
  // The control endpoints

  datatype Endpoint = StartEndpoint | PauseEndpoint | ResumeEndpoint | StopEndpoint | DiscardEndpoint

  /** /start, /pause, /resume, /stop and /discard: a fixed message, whatever came before. */
  function ControlReply(e: Endpoint): (r: Reply)
    ensures r.status == 200 && r.body.MessageBody? && r.body.message != ""
  {
    match e
    case StartEndpoint => Reply(200, MessageBody("Recording started successfully"))
    case PauseEndpoint => Reply(200, MessageBody("Recording paused successfully"))
    case ResumeEndpoint => Reply(200, MessageBody("Recording resumed successfully"))
    case StopEndpoint => Reply(200, MessageBody("Video stopped successfully"))
    case DiscardEndpoint => Reply(200, MessageBody("Video recording discarded successfully"))
  }

  // ---------------------------------------------------------------------
  // Properties of allowed_file

  /** The last '.' of `stem + "." + ext` is the one before `ext` when `ext` has none. */
  lemma LastDotOfJoin(stem: string, ext: string)
    requires '.' !in ext
    ensures LastDot(stem + "." + ext) == Some(|stem|)
  {
    var f := stem + "." + ext;
    assert f[|stem|] == '.';
    assert f[|stem| + 1..] == ext;
  }

  /**
   * Reference definition: a name is allowed exactly when the text after its
   * last '.' lowers to an allowed extension, whatever comes before.
   */
  lemma AllowedFileIff(stem: string, ext: string)
    requires '.' !in ext
    ensures AllowedFile(stem + "." + ext) <==> Lower(ext) in AllowedExtensions
  {
    LastDotOfJoin(stem, ext);
    assert (stem + "." + ext)[|stem| + 1..] == ext;
  }

  /** Only the last extension counts, in any case. */
  lemma AcceptedExamples()
    ensures AllowedFile("a.tar.WEBM") && AllowedFile("clip.MP4")
  {
    assert Lower("WEBM") == "webm" by {
      assert LowerChar('W') == 'w' && LowerChar('E') == 'e' && LowerChar('B') == 'b' && LowerChar('M') == 'm';
    }
    assert "a.tar" + "." + "WEBM" == "a.tar.WEBM";
    AllowedFileIff("a.tar", "WEBM");
    assert Lower("MP4") == "mp4" by {
      assert LowerChar('M') == 'm' && LowerChar('P') == 'p' && LowerChar('4') == '4';
    }
    assert "clip" + "." + "MP4" == "clip.MP4";
    AllowedFileIff("clip", "MP4");
  }

  /** An empty or another extension fails. */
  lemma RejectedExamples()
    ensures !AllowedFile("video.") && !AllowedFile("clip.mov")
  {
    AllowedFileIff("video", "");
    assert "video" + "." + "" == "video.";
    AllowedFileIff("clip", "mov");
    assert "clip" + "." + "mov" == "clip.mov";
    assert Lower("mov") == "mov";
  }

  /** Lowering twice is lowering once. */
  lemma LowerIdempotent(s: string)
    ensures Lower(Lower(s)) == Lower(s)
  {
  }

  lemma {:induction false} LastDotLower(s: string)
    ensures LastDot(Lower(s)) == LastDot(s)
  {
    if s != [] {
      assert Lower(s)[..|s| - 1] == Lower(s[..|s| - 1]);
      LastDotLower(s[..|s| - 1]);
    }
  }

  /** Lowering keeps the '.'s where they are. */
  lemma DotsLower(filename: string)
    ensures '.' in Lower(filename) <==> '.' in filename
  {
    if '.' in filename {
      var i :| 0 <= i < |filename| && filename[i] == '.';
      assert Lower(filename)[i] == '.';
    }
  }

  /** Lowering a suffix is taking the suffix of the lowered text. */
  lemma LowerSuffix(s: string, i: nat)
    requires i <= |s|
    ensures Lower(s)[i..] == Lower(s[i..])
  {
    var a, b := Lower(s)[i..], Lower(s[i..]);
    assert |a| == |b|;
    forall j | 0 <= j < |a|
      ensures a[j] == b[j]
    {
      assert a[j] == Lower(s)[i + j] == LowerChar(s[i + j]);
    }
  }

  /** So lowering commutes with taking the extension. */
  lemma ExtensionLower(filename: string)
    requires '.' in filename
    ensures '.' in Lower(filename)
    ensures Extension(Lower(filename)) == Lower(Extension(filename))
  {
    DotsLower(filename);
    LastDotLower(filename);
    var k := LastDot(filename).value;
    LowerSuffix(filename, k + 1);
    calc {
      Extension(Lower(filename));
      Lower(filename)[k + 1..];
      Lower(filename[k + 1..]);
      Lower(Extension(filename));
    }
  }

  /** The check ignores case throughout: lowering the whole name first changes nothing. */
  lemma AllowedFileIgnoresCase(filename: string)
    ensures AllowedFile(Lower(filename)) == AllowedFile(filename)
  {
    DotsLower(filename);
    if '.' in filename {
      ExtensionLower(filename);
      LowerIdempotent(Extension(filename));
    }
  }

  // ---------------------------------------------------------------------
  // Properties of upload_video

  /** A non-POST request gets 405 before the body is looked at. */
  lemma MethodCheckedFirst(req1: Request, req2: Request, id1: string, id2: string, s1: SaveOutcome, s2: SaveOutcome)
    requires req1.verb != "POST" && req2.verb != "POST"
    ensures UploadVideo(req1, id1, s1) == UploadVideo(req2, id2, s2) == Reply(405, ErrorBody("Only POST method is allowed"))
  {
  }

  /**
   * The checks run in order (method, body, `file` part, file name) and all of
   * them before the save: a request that fails one gets the same reply
   * whatever the save would have done.
   */
  lemma ChecksPrecedeSave(req: Request, id: string, s1: SaveOutcome, s2: SaveOutcome)
    requires !ReachesSave(req)
    ensures UploadVideo(req, id, s1) == UploadVideo(req, id, s2)
    ensures req.verb == "POST" && req.form.Parsed? && "file" !in req.form.files ==>
              UploadVideo(req, id, s1) == Reply(400, ErrorBody("No file part in the request"))
    ensures req.verb == "POST" && req.form.Parsed? && "file" in req.form.files ==>
              UploadVideo(req, id, s1) == Reply(400, ErrorBody("No file selected"))
  {
  }

  /** The stored name is `<id>.webm` whatever the uploaded name or extension. */
  lemma StoredNameIgnoresUpload(req1: Request, req2: Request, id: string)
    requires ReachesSave(req1) && ReachesSave(req2)
    ensures UploadVideo(req1, id, Saved) == UploadVideo(req2, id, Saved)
    ensures UploadVideo(req1, id, Saved).body.filename == id + ".webm"
  {
  }

  /** upload_video never calls allowed_file: a name it would refuse is stored all the same. */
  lemma ExtensionNotChecked(id: string)
    ensures var req := Request("POST", Parsed(map["file" := FileField("clip.mov")]));
            !AllowedFile(req.form.files["file"].filename) && UploadVideo(req, id, Saved).status == 200
  {
    RejectedExamples();
  }

  /** The final "No valid file found" reply cannot be produced: a named file is truthy. */
  lemma NoValidFileUnreachable(req: Request, id: string, save: SaveOutcome)
    ensures UploadVideo(req, id, save) != Reply(400, ErrorBody("No valid file found"))
  {
  }
}

=== FILE: wrappers.dfy ===
/** The optional value used by the client and the server models. */
module Wrappers {

  datatype Option<+T> = None | Some(value: T)
}
